=== FILE: README.md ===
# Simulations core in Dafny

This project models the computational core of a set of Python plotting scripts. The plotting itself is not modelled. The modelled pieces are:

- **The animation progress report** (`animation_progress` in Animations/animations.py). After the updater has drawn a frame, `animation_progress` prints a status line, `Animated: {frame} / {total} frames`. It then prints a bar made of `ceil(20 * shown / total)` hashes and `ceil(20 * (total - shown) / total)` underscores. On the last frame it also prints a completion message.
- **Rotating and drawing the cube** (also in Animations/animations.py):
  - `rotate` applies a 3 x 3 matrix to every column of a 3 x N array.
  - `draw_cube` builds six polygons from a fixed face-index table.
  - `main2` supplies the cube `(+-1, +-1, +-1) / 3`.
- **Field selection** (EM/fields.py):
  - `constant_field`.
  - The normalisation step of `dipole`, including its failure when `normal` is false. The name `E` is then never bound, so the return raises.
  - `polarized_sphere`. It picks, point by point, the constant field `-P` strictly inside the radius and the dipole field elsewhere, through a 0/1 masked sum.
- **The diamond conventional cell** (SolidState/lattice.py):
  - 14 fcc sites (`b1_points`).
  - 4 sites shifted by `(a/4)(1,1,1)` (`b2_points`).
  - 4 bond directions.
  - 16 bond rows.

  With `a = 1`, every coordinate is a multiple of a/4. Points are therefore integer triples in units of a/4.

The progress bar is not always 22 characters long. With the two ceilings its interior holds 20 cells when `total` divides `20 * shown`, and 21 cells otherwise. For example, three frames give 7 + 14 on the first frame. The whole bar is therefore 22 or 23 characters. The model follows the code: `Progress.BarInteriorWidth` proves both cases and `Progress.WideBarExample` exhibits the wide bar.

Modules:

| Module | Contents |
|---|---|
| `Outcomes` | Python exceptions and NaN outcomes as a `Result` |
| `Decimal` | Integer formatting for the f-string, and its parser |
| `IntArith` | Uniqueness of Euclidean division |
| `Progress` | The progress report |
| `Rotation` | Rotation of a point cloud |
| `Cube` | The cube and its polygons |
| `Fields` | The field selection |
| `Lattice` | The diamond cell |

Arithmetic is exact: `int` for the bar and the lattice, `real` for rotation and fields. Square roots are not computable over `real`. The magnitudes `np.sqrt` yields in `constant_field` and `dipole` therefore enter as arguments constrained to be the non-negative root (`Fields.IsRoot`). The `np.sqrt` in the inside test of `polarized_sphere` is replaced by the squared comparison `x^2 + y^2 < R^2`, and `Fields.InsideMatchesDistance` shows the two forms agree.

## Model

| member | source | states |
|---|---|---|
| Progress.CeilDiv | Animations/animations.py:28-29 | the result is the least integer not below the exact quotient, as `int(np.ceil(...))` gives for the quotients the bar uses |
| Progress.AnimationProgress | Animations/animations.py:22-37 | `total == 0` fails with a division error; otherwise the report shows `frame + 1` of `total`, the bar is `[`, the hash count, the underscore count, `]` in that order with every hash before every underscore, and the completion message is flagged exactly on the last frame |
| Progress.BarInteriorWidth | Animations/animations.py:25-30 | for `0 <= frame < total` there are 1..20 hashes and 0..20 underscores, together 20 or 21, and exactly 20 iff `total` divides `20 * (frame + 1)` |
| Progress.WideBarExample | Animations/animations.py:25-30 | three frames, first frame: the bar string has 23 characters |
| Progress.LastFrameOnly | Animations/animations.py:28-37 | on the last frame the bar is twenty hashes; on every earlier frame at least one underscore remains; the printed output ends with the completion message if and only if the frame is the last |
| Progress.Repeat | Animations/animations.py:28-29 | Python's `n * c`: exactly `n` copies of `c`, and the empty string when `n` is negative |
| Progress.Console | Animations/animations.py:33-37 | the output is the status line and a newline, then the bar followed by a blank line, then the completion message and its newline exactly when the report is complete, and nothing else |
| Progress.Monotone | Animations/animations.py:26-29 | as the frame advances the hash count never falls and the underscore count never rises |
| Progress.StatusRoundTrip | Animations/animations.py:33 | the status line of any report parses back to its shown frame and total |
| Progress.ShownCount | Animations/animations.py:25-33 | the count displayed is the 1-based frame number out of `total` |
| Decimal.TextRoundTrip | Animations/animations.py:33 | the decimal text of every integer, negative ones included, parses back to that integer |
| Decimal.TextInjective | Animations/animations.py:33 | different integers are printed differently |
| Decimal.Text | Animations/animations.py:33 | `str(n)` inside the f-string: non-empty, a leading minus sign exactly for negative `n`, digits everywhere else, no leading zero, and the text `0` exactly for zero |
| Rotation.Rotate | Animations/animations.py:98-104 | the result has the input's shape and column i is `M` applied to input column i, for every i |
| Rotation.RotationUnique | Animations/animations.py:98-104 | column i of the output depends on nothing but `M` and input column i: two outputs meeting the contract are equal |
| Rotation.RotateCompose | Animations/animations.py:96-104 | rotating by `N` and then by `M` is rotating once by `M @ N` |
| Rotation.RotateIdentity | Animations/animations.py:98-104 | rotating by the identity matrix returns the array unchanged |
| Cube.FaceTable | Animations/animations.py:108 | six faces of four distinct indices, each a column 0..7 of the vertex array, and every vertex on exactly three faces |
| Cube.Poly3d | Animations/animations.py:110-112 | with at least eight columns, polygon f lists the columns named by face f in order; with fewer, the lookup fails with an index error |
| Cube.Poly3dOfRotation | Animations/animations.py:98-112 | drawing a rotated array gives the original polygons with every corner rotated |
| Cube.CubeVertices | Animations/animations.py:119-124 | the cube of `main2` is a well-formed array of eight columns, column i being the integer corner i of the table divided by 3, so every coordinate is `+-1/3` |
| Cube.PolygonsAreCubeFaces | Animations/animations.py:108-124 | on that cube every polygon lies in one face plane `x`, `y` or `z = +-1/3` and runs round the face along four edges |
| Fields.ConstantField | EM/fields.py:8-11 | both arrays have the grid's shape with every entry `E0[0]`, respectively `E0[1]`; the scale is 1 when `normal`, otherwise the non-negative root of `E0[0]^2 + E0[1]^2` |
| Fields.ConstantFieldNotRescaled | EM/fields.py:10-11 | `normal=True` gives scale 1 while the arrows for `E0 = (0, 2)` keep length 2 |
| Fields.Dipole | EM/fields.py:24-29 | without `normal` the call fails because `E` is unbound; with it, success iff every magnitude is positive (a zero gives NaN), and then every point has the magnitude as scale and a unit vector whose multiple by the magnitude is the raw field |
| Fields.UnitAfterNormalise | EM/fields.py:24-27 | dividing a vector by its positive length gives a vector of length one |
| Fields.QuotUnit | EM/fields.py:24-27 | the same at every point of the grid |
| Fields.InsideMatchesDistance | EM/fields.py:37-38 | the squared test `x^2 + y^2 < R^2` agrees with `sqrt(x^2 + y^2) < R` for every radius; a point at distance exactly `R` is outside |
| Fields.MaskPartition | EM/fields.py:37-40 | the inside and outside weights are 0/1 complements at every point, the inside weight being 1 exactly strictly within the radius |
| Fields.Select | EM/fields.py:39-47 | the masked sum `Inside * a + Outside * b` equals `a` at the points strictly inside the radius and `b` at all others |
| Fields.PolarizedSphere | EM/fields.py:32-49 | it fails exactly when the dipole does and with the same error; otherwise inside points carry `(-P[0], -P[1])` with scale 1 and outside points carry the dipole's components and scale |
| Lattice.BuildB1Points | SolidState/lattice.py:16-25 | 14 points: corner `n1*e1 + n2*e2 + n3*e3` at 4*n1 + 2*n2 + n3, face centre `a_k + n*e_k` at 8 + 3*n + k, all in the closed cube, pairwise distinct, and every fcc point of the cube among them |
| Lattice.B1TableLayout | SolidState/lattice.py:18-25 | the same layout, stated of the table |
| Lattice.BuildB2Points | SolidState/lattice.py:27-28 | 4 points `{0, a1, a2, a3} + b2`, strictly inside the cube, distinct, and exactly the shifted fcc points of the cube |
| Lattice.BuildDirections | SolidState/lattice.py:32-35 | four directions `a_k - b2`, each a step of `+-a/4` along every axis |
| Lattice.DirectionIsBondStep | SolidState/lattice.py:34-35 | each direction has that shape |
| Lattice.BondStepIsDirection | SolidState/lattice.py:34-35 | every step of that shape is one of the four directions |
| Lattice.DirectionsCancel | SolidState/lattice.py:34-35 | the four directions add up to the zero vector |
| Lattice.BondStepLength | SolidState/lattice.py:34-35 | every direction has squared length 3 (a^2/16), so all bonds are equally long |
| Lattice.ConnectionsAt | SolidState/lattice.py:37-39 | row i*m + j of the connection table pairs site i with direction j |
| Lattice.BuildConnections | SolidState/lattice.py:37-40 | the table has one row per site and direction, row i*m + j being (site i, direction j) |
| Lattice.BondEndIsSite | SolidState/lattice.py:21-39 | following any bond step from a shifted site lands on an fcc site |
| Lattice.NearestSites | SolidState/lattice.py:21-39 | no fcc site is nearer a shifted site than a bond length, and those at exactly that distance lie along a bond step |
| Lattice.BuildDiamondCell | SolidState/lattice.py:16-40 | sizes 14, 4, 4 and 16; the 14 `b1_points` are distinct fcc sites of the closed cube, `b2_points[i]` is basis vector i plus b2 and direction j is basis vector j minus b2; row 4i + j is (b2 site i, direction j); every bond ends on one of the 14 `b1_points`; every bond has squared length 3 |

## Left out

- Rendering and encoding are not modelled: `animate` and `FuncAnimation`, `FFMpegWriter`, every `ax.*` and `plt.*` call, `rcParams`, `main` and `main2` beyond the cube array. How often and in what order the animation library calls the updater is not visible in the code, so the model states each call on its own.
- `polar`, `spherical`, `rotation_matrix`, the dipole field formula (EM/fields.py:17-22) and the moment `(4 pi / 3) R^3 P` (EM/fields.py:36) are left out. They are trigonometry, inversion and floating point. The dipole's raw components enter `Fields.Dipole` as grids instead.
- EM/quiver.py is not part of this model.
- The commented-out code in Animations/animations.py:58-65 is dead and not modelled.
- Numpy broadcasting is modelled only where the code uses it: a scalar is broadcast as a grid filled with it, then multiplied element-wise.
- Progress.CeilDiv: exact ceiling division of integers, where the code takes `np.ceil` of a float quotient. The two differ only for very large counts. For frame 10^16 of 2 * 10^17, the quotient `(frame + 1) / total` is just above 1/20. It rounds to the float 0.05, and `20 * 0.05` rounds to 1.0, so the code draws 1 hash where the model draws 2. The interior is then 20 cells although `total` does not divide `20 * (frame + 1)`.
- Progress.BarInteriorWidth: its "exactly 20 iff" is about the exact ceilings. It does not cover the float divergence described for Progress.CeilDiv.
- Progress.AnimationProgress: when `frame / total` reaches about 9 * 10^306 in size, which only a frame far outside `0 <= frame < total` can do, the float arithmetic overflows. Either the division itself or `int(np.ceil(...))` of an infinite value then raises OverflowError (Animations/animations.py:26-29). The model, with unbounded integers, returns a report instead.
- Fields.Dipole: if any magnitude is zero, the whole sample is reported as `NotFinite`. Numpy would put NaN at those points only, and a NaN there also poisons an inside point of `polarized_sphere` through `0 * NaN`.
- Fields.PolarizedSphere: the magnitudes arrive as arguments, constrained to be the roots of the raw components.
- Fields.PolarizedSphere: the raw dipole grids are finite reals, so the origin is assumed not to be sampled. At r = 0 the code computes `A / r**3 = inf` (EM/fields.py:21-22). When a component of `P` is zero, as with the default `P=[0, 1]`, a component there is `inf * 0 = NaN` and so is the magnitude. When both are nonzero, the components are infinite, so the magnitude is `inf` and the normalised components are `inf / inf = NaN`. The masked sum at EM/fields.py:45-46 then multiplies by an outside weight of 0, giving `0 * NaN` or `0 * inf`, which is NaN either way. So the code returns NaN at that inside point, where the model promises `(-P[0], -P[1])`.
- Fields.Dipole: the raw components `ex`, `ey` are finite reals; the infinities the formula yields at r = 0 (EM/fields.py:21-22) cannot be represented, so a grid that samples the origin is outside the model.
- Default arguments are not modelled: every parameter is explicit. The code's defaults are `E0=[0, 1]`, `normal=False` for `constant_field` (EM/fields.py:8), `p=[0, 1]`, `normal=True` for `dipole` (EM/fields.py:15), and `R=1`, `P=[0, 1]`, `normal=True` for `polarized_sphere` (EM/fields.py:33-34); `main` (EM/fields.py:53-58) relies on them and is itself not modelled; its 20-point grid from -3 to 3 does not contain 0, so it never samples the origin.
- Rotation.Rotate: exact real arithmetic, not 64-bit floats.
- Lattice.BuildB1Points: coordinates are exact multiples of a/4 with `a = 1`. The loops at SolidState/lattice.py:24, 27 and 34 rebind the name `a`, which changes nothing afterwards because `b2` was computed before.
- Lattice.BuildDirections: the sum-to-zero property is stated by `Lattice.DirectionsCancel` about the same directions, not in the method's own contract.

=== FILE: cube.dfy ===
/** The cube drawn by `draw_cube` (Animations/animations.py): the face-index
    table, the polygons built from it, and the vertex array of `main2`. */
module Cube {
  import opened Outcomes
  import opened Rotation

  /** Each face lists four column indices of the vertex array, in drawing order. */
  const Faces: seq<seq<int>> :=
    [[0, 1, 2, 3], [1, 5, 6, 2], [3, 2, 6, 7], [4, 0, 3, 7], [5, 4, 7, 6], [4, 5, 1, 0]]

  /** The integer cube of `main2`: corners (+-1, +-1, +-1), one per column. */
  const CornerRows: seq<seq<int>> :=
    [[-1, 1, 1, -1, -1, 1, 1, -1],
     [-1, -1, 1, 1, -1, -1, 1, 1],
     [-1, -1, -1, -1, 1, 1, 1, 1]]

  /** Element-wise `row / 3`. */
  function Thirds(row: seq<int>): (r: seq<real>)
    ensures |r| == |row|
    ensures forall i :: 0 <= i < |row| ==> 3.0 * r[i] == row[i] as real
  {
    seq(|row|, i requires 0 <= i < |row| => row[i] as real / 3.0)
  }

  /** The cube vertex `i` in thirds: the corner at column i of `CornerRows`. */
  function Corner(i: int): Vec3
    requires 0 <= i < 8
  {
    Vec3(CornerRows[0][i] as real / 3.0, CornerRows[1][i] as real / 3.0, CornerRows[2][i] as real / 3.0)
  }

  /** `X = X / 3`: the cube that `main2` rotates and draws. */
  function CubeVertices(): (c: Cloud)
    ensures WellFormed(c) && Width(c) == 8
    ensures forall i :: 0 <= i < 8 ==> Column(c, i) == Corner(i)
  {
    Cloud(Thirds(CornerRows[0]), Thirds(CornerRows[1]), Thirds(CornerRows[2]))
  }

  /** How many of the first `n` faces list vertex `v`. */
  function FacesAt(v: int, n: nat): nat
    requires n <= |Faces|
  {
    if n == 0 then 0 else FacesAt(v, n - 1) + (if v in Faces[n - 1] then 1 else 0)
  }

  /** Six faces of four distinct indices, every index a column of the 8-vertex
      array, and every vertex on exactly three faces. */
  lemma FaceTable()
    ensures |Faces| == 6
    ensures forall f :: 0 <= f < |Faces| ==> |Faces[f]| == 4
    ensures forall f, k :: 0 <= f < |Faces| && 0 <= k < |Faces[f]| ==> 0 <= Faces[f][k] < 8
    ensures forall f, j, k :: 0 <= f < |Faces| && 0 <= j < k < |Faces[f]| ==> Faces[f][j] != Faces[f][k]
    ensures forall v :: 0 <= v < 8 ==> FacesAt(v, |Faces|) == 3
  {
    forall v | 0 <= v < 8
      ensures FacesAt(v, 6) == 3
    {
      ThreeFacesAt(v);
    }
  }

  lemma ThreeFacesAt(v: int)
    requires 0 <= v < 8
    ensures FacesAt(v, 6) == 3
  {
    FaceLists(v, 0); FaceLists(v, 1); FaceLists(v, 2);
    FaceLists(v, 3); FaceLists(v, 4); FaceLists(v, 5);
    assert FacesAt(v, 6) == FacesAt(v, 5) + (if v in Faces[5] then 1 else 0);
    assert FacesAt(v, 5) == FacesAt(v, 4) + (if v in Faces[4] then 1 else 0);
    assert FacesAt(v, 4) == FacesAt(v, 3) + (if v in Faces[3] then 1 else 0);
    assert FacesAt(v, 3) == FacesAt(v, 2) + (if v in Faces[2] then 1 else 0);
    assert FacesAt(v, 2) == FacesAt(v, 1) + (if v in Faces[1] then 1 else 0);
    assert FacesAt(v, 1) == (if v in Faces[0] then 1 else 0);
  }

  /** Membership in a face is equality with one of its four entries. */
  lemma FaceLists(v: int, f: int)
    requires 0 <= f < 6
    ensures v in Faces[f] <==> v == Faces[f][0] || v == Faces[f][1] || v == Faces[f][2] || v == Faces[f][3]
  {
    var face := Faces[f];
    assert |face| == 4;
    assert face == [face[0], face[1], face[2], face[3]];
  }

  /** The corners of one polygon: `tupleList[vertices[f][k]]` for k = 0..3. */
  function Polygon(x: Cloud, f: nat): (p: seq<Vec3>)
    requires WellFormed(x) && Width(x) >= 8 && f < |Faces|
  {
    seq(4, k requires 0 <= k < 4 => Column(x, Faces[f][k]))
  }

  /** `poly3d`: one polygon per face; an array with fewer than eight columns
      makes the list lookup fail. */
  function Poly3d(x: Cloud): (r: Result<seq<seq<Vec3>>>)
    requires WellFormed(x)
    ensures r.Ok? <==> Width(x) >= 8
    ensures r.Fail? ==> r.fault == IndexOutOfRange
    ensures r.Ok? ==> |r.value| == |Faces|
    ensures r.Ok? ==> forall f, k :: 0 <= f < |Faces| && 0 <= k < 4 ==>
                        |r.value[f]| == 4 && r.value[f][k] == Column(x, Faces[f][k])
  {
    if Width(x) < 8 then Fail(IndexOutOfRange)
    else Ok(seq(|Faces|, f requires 0 <= f < |Faces| => Polygon(x, f)))
  }

  /** Drawing a rotated array gives the rotated polygons of the original. */
  lemma Poly3dOfRotation(m: Mat3, x: Cloud, r: Cloud)
    requires WellFormed(x) && IsRotationOf(m, x, r) && Width(x) >= 8
    ensures Poly3d(r).Ok? && Poly3d(x).Ok?
    ensures forall f, k :: 0 <= f < |Faces| && 0 <= k < 4 ==>
              Poly3d(r).value[f][k] == Apply(m, Poly3d(x).value[f][k])
  {
  }

  /** Two points of the cube are joined by an edge: they differ in exactly one coordinate. */
  predicate Edge(p: Vec3, q: Vec3) {
    (if p.x == q.x then 0 else 1) + (if p.y == q.y then 0 else 1) + (if p.z == q.z then 0 else 1) == 1
  }

  /** All four corners lie on one of the planes x, y or z = +-1/3. */
  predicate OnFacePlane(p: seq<Vec3>)
    requires |p| == 4
  {
    || (forall k :: 0 <= k < 4 ==> p[k].x == p[0].x && (p[0].x == 1.0 / 3.0 || p[0].x == -1.0 / 3.0))
    || (forall k :: 0 <= k < 4 ==> p[k].y == p[0].y && (p[0].y == 1.0 / 3.0 || p[0].y == -1.0 / 3.0))
    || (forall k :: 0 <= k < 4 ==> p[k].z == p[0].z && (p[0].z == 1.0 / 3.0 || p[0].z == -1.0 / 3.0))
  }

  /** The corners `Faces[f]` picks out, looked up in the integer table. */
  function FaceCorners(f: int): seq<Vec3>
    requires 0 <= f < 6
  {
    [Corner(Faces[f][0]), Corner(Faces[f][1]), Corner(Faces[f][2]), Corner(Faces[f][3])]
  }

  lemma FaceCornersAreFace(f: int)
    requires 0 <= f < 6
    ensures var p := FaceCorners(f);
            && OnFacePlane(p)
            && Edge(p[0], p[1]) && Edge(p[1], p[2]) && Edge(p[2], p[3]) && Edge(p[3], p[0])
  {
    var p := FaceCorners(f);
    if f == 0 {
      assert p == [Corner(0), Corner(1), Corner(2), Corner(3)];
    } else if f == 1 {
      assert p == [Corner(1), Corner(5), Corner(6), Corner(2)];
    } else if f == 2 {
      assert p == [Corner(3), Corner(2), Corner(6), Corner(7)];
    } else if f == 3 {
      assert p == [Corner(4), Corner(0), Corner(3), Corner(7)];
    } else if f == 4 {
      assert p == [Corner(5), Corner(4), Corner(7), Corner(6)];
    } else {
      assert p == [Corner(4), Corner(5), Corner(1), Corner(0)];
    }
  }

  /** On the cube of `main2`, every polygon is a face of the cube: its corners
      lie on one face plane and go round the face along its four edges. */
  lemma PolygonsAreCubeFaces()
    ensures Poly3d(CubeVertices()).Ok?
    ensures forall f :: 0 <= f < |Faces| ==>
              var p := Poly3d(CubeVertices()).value[f];
              && |p| == 4
              && OnFacePlane(p)
              && Edge(p[0], p[1]) && Edge(p[1], p[2]) && Edge(p[2], p[3]) && Edge(p[3], p[0])
  {
    var c := CubeVertices();
    var polys := Poly3d(c).value;
    forall f | 0 <= f < |Faces|
      ensures |polys[f]| == 4 && OnFacePlane(polys[f])
      ensures Edge(polys[f][0], polys[f][1]) && Edge(polys[f][1], polys[f][2])
      ensures Edge(polys[f][2], polys[f][3]) && Edge(polys[f][3], polys[f][0])
    {
      forall k | 0 <= k < 4
        ensures polys[f][k] == FaceCorners(f)[k]
      {
        var i := Faces[f][k];
        assert 0 <= i < 8;
        assert Column(c, i) == Corner(i);
      }
      assert polys[f] == FaceCorners(f);
      FaceCornersAreFace(f);
    }
  }
}

=== FILE: decimal.dfy ===
/** Decimal text of an integer, as Python's `str(int)` (and an f-string
    placeholder) writes it, together with the reading back of that text. */
module Decimal {
  import opened Outcomes

  predicate IsDigit(c: char) {
    '0' <= c <= '9'
  }

  function DigitChar(d: int): (c: char)
    requires 0 <= d < 10
    ensures IsDigit(c) && c as int - '0' as int == d
  {
    (d + '0' as int) as char
  }

  function DigitValue(c: char): (d: nat)
    requires IsDigit(c)
    ensures d < 10 && DigitChar(d) == c
  {
    c as int - '0' as int
  }

  /** Digits of a natural number, most significant first, with no leading zero. */
  function NatText(n: nat): (s: string)
    ensures 1 <= |s|
    ensures forall i :: 0 <= i < |s| ==> IsDigit(s[i])
    ensures |s| == 1 || s[0] != '0'
    decreases n
  {
    if n < 10 then [DigitChar(n)] else NatText(n / 10) + [DigitChar(n % 10)]
  }

  /** `str(n)`: a minus sign for negative numbers, then the digits of |n|. */
  function Text(n: int): (r: string)
    ensures 1 <= |r|
    ensures r[0] == '-' <==> n < 0
    ensures forall i :: (if n < 0 then 1 else 0) <= i < |r| ==> IsDigit(r[i])
    ensures r == "0" <==> n == 0
    ensures var d := if n < 0 then 1 else 0; |r| <= d + 1 || r[d] != '0'
  {
    if n < 0 then "-" + NatText(-n) else NatText(n)
  }

  predicate AllDigits(s: string) {
    forall i :: 0 <= i < |s| ==> IsDigit(s[i])
  }

  /** The value of a string of digits read in base ten. */
  function NatValue(s: string): nat
    requires AllDigits(s)
  {
    if |s| == 0 then 0 else 10 * NatValue(s[..|s| - 1]) + DigitValue(s[|s| - 1])
  }

  /** Reads an optionally signed decimal numeral; anything else is `None`. */
  function Parse(s: string): Option<int> {
    if |s| > 1 && s[0] == '-' && AllDigits(s[1..]) then Some(0 - NatValue(s[1..]))
    else if |s| > 0 && AllDigits(s) then Some(NatValue(s) as int)
    else None
  }

  lemma {:induction false} NatRoundTrip(n: nat)
    ensures NatValue(NatText(n)) == n
    decreases n
  {
    if n >= 10 {
      var s := NatText(n);
      NatRoundTrip(n / 10);
      assert s[..|s| - 1] == NatText(n / 10);
    }
  }

  /** Reading back the printed text of any integer gives that integer. */
  lemma TextRoundTrip(n: int)
    ensures Parse(Text(n)) == Some(n)
  {
    if n < 0 {
      var digits := NatText(-n);
      var s := "-" + digits;
      assert s[1..] == digits;
      assert AllDigits(s[1..]);
      NatRoundTrip(-n);
    } else {
      var s := NatText(n);
      assert s[0] != '-';
      NatRoundTrip(n);
    }
  }

  /** Two integers print the same only when they are equal. */
  lemma TextInjective(m: int, n: int)
    ensures Text(m) == Text(n) <==> m == n
  {
    if Text(m) == Text(n) {
      TextRoundTrip(m);
      TextRoundTrip(n);
    }
  }

  /** The printed form never contains a space, so it can be delimited by one. */
  lemma TextHasNoSpace(n: int)
    ensures forall i :: 0 <= i < |Text(n)| ==> Text(n)[i] != ' '
  {
  }
}

=== FILE: fields.dfy ===
/** Field selection on a sampling grid (EM/fields.py): the constant field,
    the normalisation step of the dipole field, and the inside/outside
    selection of the uniformly polarized sphere.

    Values are exact reals. Square roots are not computable over `real`, so
    every `np.sqrt` result the source uses enters as an argument, constrained
    to be the non-negative root. The dipole formula itself (and the moment it
    is evaluated at) is not modelled: its raw components enter as grids. */
module Fields {
  import opened Outcomes

  /** A two-dimensional numpy array, as `np.meshgrid` produces it, by rows. */
  type Grid = seq<seq<real>>

  predicate SameShape(a: Grid, b: Grid) {
    |a| == |b| && forall i :: 0 <= i < |a| ==> |a[i]| == |b[i]|
  }

  /** `root` is what `np.sqrt(s)` denotes. */
  predicate IsRoot(root: real, s: real) {
    root >= 0.0 && root * root == s
  }

  /** `c * np.ones(shape.shape)`. */
  function Filled(shape: Grid, c: real): (g: Grid)
    ensures SameShape(g, shape)
    ensures forall i, j :: 0 <= i < |g| && 0 <= j < |g[i]| ==> g[i][j] == c
  {
    seq(|shape|, i requires 0 <= i < |shape| => seq(|shape[i]|, _ => c))
  }

  /** Element-wise `a * b`. */
  function Times(a: Grid, b: Grid): (g: Grid)
    requires SameShape(a, b)
    ensures SameShape(g, a)
    ensures forall i, j :: 0 <= i < |g| && 0 <= j < |g[i]| ==> g[i][j] == a[i][j] * b[i][j]
  {
    seq(|a|, i requires 0 <= i < |a| => seq(|a[i]|, j requires 0 <= j < |a[i]| => a[i][j] * b[i][j]))
  }

  /** Element-wise `a + b`. */
  function Plus(a: Grid, b: Grid): (g: Grid)
    requires SameShape(a, b)
    ensures SameShape(g, a)
    ensures forall i, j :: 0 <= i < |g| && 0 <= j < |g[i]| ==> g[i][j] == a[i][j] + b[i][j]
  {
    seq(|a|, i requires 0 <= i < |a| => seq(|a[i]|, j requires 0 <= j < |a[i]| => a[i][j] + b[i][j]))
  }

  predicate AllPositive(e: Grid) {
    forall i, j :: 0 <= i < |e| && 0 <= j < |e[i]| ==> e[i][j] > 0.0
  }

  /** Element-wise `a / b`. */
  function Quot(a: Grid, b: Grid): (g: Grid)
    requires SameShape(a, b) && AllPositive(b)
    ensures SameShape(g, a)
    ensures forall i, j :: 0 <= i < |g| && 0 <= j < |g[i]| ==> g[i][j] * b[i][j] == a[i][j]
  {
    seq(|a|, i requires 0 <= i < |a| => seq(|a[i]|, j requires 0 <= j < |a[i]| => a[i][j] / b[i][j]))
  }

  // ---------------------------------------------------------------- constant field

  /** Two component arrays and one scalar scale. */
  datatype Uniform = Uniform(u: Grid, v: Grid, scale: real)

  /** `constant_field(X, Y, E0, normal)`; `root` stands for `np.sqrt(E0[0]**2 + E0[1]**2)`,
      which is only observable when `normal` is false. */
  function ConstantField(x: Grid, y: Grid, e0x: real, e0y: real, normal: bool, root: real): (r: Uniform)
    requires !normal ==> IsRoot(root, e0x * e0x + e0y * e0y)
    ensures SameShape(r.u, x) && SameShape(r.v, y)
    ensures forall i, j :: 0 <= i < |r.u| && 0 <= j < |r.u[i]| ==> r.u[i][j] == e0x
    ensures forall i, j :: 0 <= i < |r.v| && 0 <= j < |r.v[i]| ==> r.v[i][j] == e0y
    ensures normal ==> r.scale == 1.0
    ensures !normal ==> r.scale >= 0.0 && r.scale * r.scale == e0x * e0x + e0y * e0y
  {
    Uniform(Filled(x, e0x), Filled(y, e0y), if normal then 1.0 else root)
  }

  /** `normal=True` replaces the scale by 1 but leaves the components as they
      are: with `E0 = (0, 2)` the arrows have length 2 and scale 1. */
  lemma ConstantFieldNotRescaled()
    ensures var r := ConstantField([[0.0]], [[1.0]], 0.0, 2.0, true, 0.0);
            r.scale == 1.0 && r.u[0][0] * r.u[0][0] + r.v[0][0] * r.v[0][0] == 4.0
  {
    var r := ConstantField([[0.0]], [[1.0]], 0.0, 2.0, true, 0.0);
    assert r.u[0][0] == 0.0 && r.v[0][0] == 2.0;
  }

  // ---------------------------------------------------------------- dipole normalisation

  /** Two component arrays and an array-valued scale. */
  datatype Sample = Sample(u: Grid, v: Grid, s: Grid)

  /** `e` holds the magnitude `sqrt(ex**2 + ey**2)` at every point. */
  predicate Magnitudes(ex: Grid, ey: Grid, e: Grid) {
    && SameShape(ex, ey) && SameShape(ex, e)
    && forall i, j :: 0 <= i < |e| && 0 <= j < |e[i]| ==> IsRoot(e[i][j], ex[i][j] * ex[i][j] + ey[i][j] * ey[i][j])
  }

  /** One point of the normalisation: when `u * e` and `v * e` are the raw
      components and `e > 0` their magnitude, `(u, v)` has length one. */
  lemma UnitAfterNormalise(u: real, v: real, ex: real, ey: real, e: real)
    requires e > 0.0 && u * e == ex && v * e == ey && IsRoot(e, ex * ex + ey * ey)
    ensures u * u + v * v == 1.0
  {
    calc {
      e * e;
      ex * ex + ey * ey;
      { assert ex == u * e; }
      (u * e) * (u * e) + ey * ey;
      { assert ey == v * e; }
      (u * e) * (u * e) + (v * e) * (v * e);
    }
    UnitOverMagnitude(u, v, e);
  }

  lemma UnitOverMagnitude(u: real, v: real, e: real)
    requires e > 0.0 && e * e == (u * e) * (u * e) + (v * e) * (v * e)
    ensures u * u + v * v == 1.0
  {
    var w := u * u + v * v;
    assert (w * e) * e == e * e;
    CancelFactor(w * e, e, e);
    assert w * e == 1.0 * e;
    CancelFactor(w, 1.0, e);
  }

  lemma CancelFactor(a: real, b: real, e: real)
    requires e > 0.0 && a * e == b * e
    ensures a == b
  {
    if a < b { MulLt(e, a, b); }
    if b < a { MulLt(e, b, a); }
  }

  lemma MulLt(c: real, a: real, b: real)
    requires c > 0.0 && a < b
    ensures c * a < c * b
  {
    assert c * b - c * a == c * (b - a);
  }

  /** The tail of `dipole`: given the raw components `ex`, `ey` and, when
      `normal`, their magnitudes `e`. Without `normal` the name `E` is never
      bound, so returning it fails; a zero magnitude gives 0/0, a NaN. */
  function Dipole(ex: Grid, ey: Grid, e: Grid, normal: bool): (r: Result<Sample>)
    requires SameShape(ex, ey)
    requires normal ==> Magnitudes(ex, ey, e)
    ensures !normal ==> r == Fail(Unbound("E"))
    ensures normal ==> (r.Ok? <==> AllPositive(e))
    ensures normal && r.Fail? ==> r.fault == NotFinite
    ensures r.Ok? ==> SameShape(r.value.u, ex) && SameShape(r.value.v, ex) && SameShape(r.value.s, ex)
    ensures r.Ok? ==> forall i, j :: 0 <= i < |ex| && 0 <= j < |ex[i]| ==>
              && r.value.s[i][j] == e[i][j]
              && r.value.u[i][j] * e[i][j] == ex[i][j]
              && r.value.v[i][j] * e[i][j] == ey[i][j]
              && r.value.u[i][j] * r.value.u[i][j] + r.value.v[i][j] * r.value.v[i][j] == 1.0
  {
    if !normal then Fail(Unbound("E"))
    else if !AllPositive(e) then Fail(NotFinite)
    else
      QuotUnit(ex, ey, e);
      Ok(Sample(Quot(ex, e), Quot(ey, e), e))
  }

  /** Dividing both components by their (positive) magnitudes gives unit vectors everywhere. */
  lemma QuotUnit(ex: Grid, ey: Grid, e: Grid)
    requires Magnitudes(ex, ey, e) && AllPositive(e)
    ensures forall i, j :: 0 <= i < |ex| && 0 <= j < |ex[i]| ==>
              Quot(ex, e)[i][j] * Quot(ex, e)[i][j] + Quot(ey, e)[i][j] * Quot(ey, e)[i][j] == 1.0
  {
    var u, v := Quot(ex, e), Quot(ey, e);
    forall i, j | 0 <= i < |ex| && 0 <= j < |ex[i]|
      ensures u[i][j] * u[i][j] + v[i][j] * v[i][j] == 1.0
    {
      UnitAfterNormalise(u[i][j], v[i][j], ex[i][j], ey[i][j], e[i][j]);
    }
  }

  // ---------------------------------------------------------------- polarized sphere

  /** `np.sqrt(x**2 + y**2) < R`, stated without the root. */
  predicate Inside(x: real, y: real, radius: real) {
    0.0 < radius && x * x + y * y < radius * radius
  }

  /** The squared form agrees with comparing the distance to the radius, for
      every radius; a point at distance exactly `radius` is outside. */
  lemma InsideMatchesDistance(x: real, y: real, radius: real, dist: real)
    requires IsRoot(dist, x * x + y * y)
    ensures Inside(x, y, radius) <==> dist < radius
  {
    if dist < radius {
      SquareLess(dist, radius);
    } else if 0.0 < radius {
      SquareLessEq(radius, dist);
    }
  }

  lemma SquareLess(d: real, r: real)
    requires 0.0 <= d < r
    ensures d * d < r * r
  {
    MulLt(r + d, 0.0, r - d);
    assert (r + d) * (r - d) == r * r - d * d;
  }

  lemma SquareLessEq(d: real, r: real)
    requires 0.0 <= d <= r
    ensures d * d <= r * r
  {
    if d < r { SquareLess(d, r); }
  }

  /** `bool.astype(float)`. */
  function Weight(b: bool): real {
    if b then 1.0 else 0.0
  }

  /** `Inside.astype(float)` over the grid. */
  function InsideWeights(x: Grid, y: Grid, radius: real): (w: Grid)
    requires SameShape(x, y)
    ensures SameShape(w, x)
  {
    seq(|x|, i requires 0 <= i < |x| =>
      seq(|x[i]|, j requires 0 <= j < |x[i]| => Weight(Inside(x[i][j], y[i][j], radius))))
  }

  /** `(~Inside).astype(float)` over the grid. */
  function OutsideWeights(x: Grid, y: Grid, radius: real): (w: Grid)
    requires SameShape(x, y)
    ensures SameShape(w, x)
  {
    seq(|x|, i requires 0 <= i < |x| =>
      seq(|x[i]|, j requires 0 <= j < |x[i]| => Weight(!Inside(x[i][j], y[i][j], radius))))
  }

  /** The two masks are 0/1 complements: every point is weighted 1 by exactly
      one of them, the inside one exactly at the points strictly within the radius. */
  lemma MaskPartition(x: Grid, y: Grid, radius: real)
    requires SameShape(x, y)
    ensures forall i, j :: 0 <= i < |x| && 0 <= j < |x[i]| ==>
              var win, wout := InsideWeights(x, y, radius)[i][j], OutsideWeights(x, y, radius)[i][j];
              && (win == 1.0 || win == 0.0)
              && win + wout == 1.0 && win * wout == 0.0
              && (win == 1.0 <==> Inside(x[i][j], y[i][j], radius))
  {
  }

  /** `polarized_sphere(X, Y, R, P, normal)`. `ex`, `ey` are the raw dipole
      components at the sphere's moment and `e` their magnitudes; the inside
      field is the constant field `-P`. */
  function PolarizedSphere(x: Grid, y: Grid, radius: real, px: real, py: real, normal: bool,
                           ex: Grid, ey: Grid, e: Grid): (r: Result<Sample>)
    requires SameShape(x, y) && SameShape(x, ex) && SameShape(x, ey)
    requires normal ==> SameShape(x, e) && Magnitudes(ex, ey, e)
    ensures !normal ==> r == Fail(Unbound("E"))
    ensures r.Ok? <==> Dipole(ex, ey, e, normal).Ok?
    ensures r.Fail? ==> r == Fail(Dipole(ex, ey, e, normal).fault)
    ensures r.Ok? ==> SameShape(r.value.u, x) && SameShape(r.value.v, x) && SameShape(r.value.s, x)
    ensures r.Ok? ==> forall i, j :: 0 <= i < |x| && 0 <= j < |x[i]| && Inside(x[i][j], y[i][j], radius) ==>
              r.value.u[i][j] == -px && r.value.v[i][j] == -py && r.value.s[i][j] == 1.0
    ensures r.Ok? ==> forall i, j :: 0 <= i < |x| && 0 <= j < |x[i]| && !Inside(x[i][j], y[i][j], radius) ==>
              var d := Dipole(ex, ey, e, normal).value;
              r.value.u[i][j] == d.u[i][j] && r.value.v[i][j] == d.v[i][j] && r.value.s[i][j] == d.s[i][j]
  {
    match Dipole(ex, ey, e, normal)
    case Fail(f) => Fail(f)
    case Ok(d) =>
      var c := ConstantField(x, y, -px, -py, normal, 0.0);
      Ok(Sample(Select(x, y, radius, c.u, d.u), Select(x, y, radius, c.v, d.v),
                Select(x, y, radius, Filled(x, c.scale), d.s)))
  }

  /** `Inside * a + Outside * b`: the masked sum picks `a` strictly within the
      radius and `b` elsewhere. A scalar `a` broadcasts as `Filled(x, a)`. */
  function Select(x: Grid, y: Grid, radius: real, a: Grid, b: Grid): (g: Grid)
    requires SameShape(x, y) && SameShape(x, a) && SameShape(x, b)
    ensures SameShape(g, x)
    ensures forall i, j :: 0 <= i < |x| && 0 <= j < |x[i]| ==>
              g[i][j] == if Inside(x[i][j], y[i][j], radius) then a[i][j] else b[i][j]
  {
    Plus(Times(InsideWeights(x, y, radius), a), Times(OutsideWeights(x, y, radius), b))
  }
}

=== FILE: intarith.dfy ===
/** Integer division facts used by the progress bar. */
module IntArith {

  /** Euclidean quotient and remainder are determined by `x == q * n + r`. */
  lemma DivModUnique(x: int, n: int, q: int, r: int)
    requires n > 0 && 0 <= r < n && x == q * n + r
    ensures x / n == q && x % n == r
  {
    var d := x / n - q;
    assert d * n == r - x % n;
    assert d >= 1 ==> d * n >= n;
    assert d <= -1 ==> d * n <= -n;
  }
}

=== FILE: lattice.dfy ===
/** The diamond conventional cell drawn by SolidState/lattice.py.

    With the lattice constant `a = 1` every coordinate the script produces is
    a multiple of a/4, so a point is stored as three integers in units of a/4:
    the cube [0, a]^3 is [0, 4]^3 here. */
module Lattice {

  datatype Point = Point(x: int, y: int, z: int)

  function Add(p: Point, q: Point): Point {
    Point(p.x + q.x, p.y + q.y, p.z + q.z)
  }

  function Sub(p: Point, q: Point): Point {
    Point(p.x - q.x, p.y - q.y, p.z - q.z)
  }

  /** A loop coefficient: every `range(0, 2)` in the script yields 0 or 1. */
  type Bit = n: int | 0 <= n < 2

  function Scale(n: int, p: Point): Point {
    Point(n * p.x, n * p.y, n * p.z)
  }

  /** Squared length, in units of (a/4)^2. */
  function Norm2(p: Point): int {
    p.x * p.x + p.y * p.y + p.z * p.z
  }

  const Origin: Point := Point(0, 0, 0)   // e0 and b1
  const E1: Point := Point(4, 0, 0)       // a (1, 0, 0)
  const E2: Point := Point(0, 4, 0)       // a (0, 1, 0)
  const E3: Point := Point(0, 0, 4)       // a (0, 0, 1)
  const A1: Point := Point(0, 2, 2)       // (a/2) (0, 1, 1)
  const A2: Point := Point(2, 0, 2)       // (a/2) (1, 0, 1)
  const A3: Point := Point(2, 2, 0)       // (a/2) (1, 1, 0)
  const B2: Point := Point(1, 1, 1)       // (a/4) (1, 1, 1)

  /** `[e1, e2, e3][k]`. */
  function Axis(k: int): Point
    requires 0 <= k < 3
  {
    [E1, E2, E3][k]
  }

  /** `[a1, a2, a3][k]`. */
  function FaceShift(k: int): Point
    requires 0 <= k < 3
  {
    [A1, A2, A3][k]
  }

  /** `[e0, a1, a2, a3][k]`: the fcc basis the second sublattice and the bond
      directions are built from. */
  function Basis(k: int): Point
    requires 0 <= k < 4
  {
    [Origin, A1, A2, A3][k]
  }

  /** `a - b2` for the k-th fcc basis vector a: the k-th bond direction. */
  function Direction(k: int): Point
    requires 0 <= k < 4
  {
    Sub(Basis(k), B2)
  }

  /** `n1*e1 + n2*e2 + n3*e3`, a corner of the cell for n1, n2, n3 in {0, 1}. */
  function Corner(n1: Bit, n2: Bit, n3: Bit): Point {
    Add(Add(Scale(n1, E1), Scale(n2, E2)), Scale(n3, E3))
  }

  /** `a_k + n*e_k`, the centre of a face of the cell for n in {0, 1}. */
  function FaceCentre(n: Bit, k: int): Point
    requires 0 <= k < 3
  {
    Add(FaceShift(k), Scale(n, Axis(k)))
  }

  /** The fourteen points of `b1_points`, in the order the loops append them. */
  const B1Table: seq<Point> :=
    [Point(0, 0, 0), Point(0, 0, 4), Point(0, 4, 0), Point(0, 4, 4),
     Point(4, 0, 0), Point(4, 0, 4), Point(4, 4, 0), Point(4, 4, 4),
     Point(0, 2, 2), Point(2, 0, 2), Point(2, 2, 0),
     Point(4, 2, 2), Point(2, 4, 2), Point(2, 2, 4)]

  /** The four points of `b2_points`. */
  const B2Table: seq<Point> := [Point(1, 1, 1), Point(1, 3, 3), Point(3, 1, 3), Point(3, 3, 1)]

  predicate InClosedCube(p: Point) {
    0 <= p.x <= 4 && 0 <= p.y <= 4 && 0 <= p.z <= 4
  }

  predicate InOpenCube(p: Point) {
    0 < p.x < 4 && 0 < p.y < 4 && 0 < p.z < 4
  }

  predicate IsHalfStep(c: int) {
    c == 0 || c == 2 || c == 4
  }

  predicate IsOddQuarter(c: int) {
    c == 1 || c == 3
  }

  /** A point of the face-centred cubic lattice (integer combinations of
      a1, a2, a3) that lies in the closed cell. */
  predicate IsFccSite(p: Point) {
    IsHalfStep(p.x) && IsHalfStep(p.y) && IsHalfStep(p.z) && (p.x + p.y + p.z) % 4 == 0
  }

  /** A point of the fcc lattice shifted by b2 that lies in the cell. */
  predicate IsShiftedSite(p: Point) {
    IsOddQuarter(p.x) && IsOddQuarter(p.y) && IsOddQuarter(p.z) && (p.x + p.y + p.z) % 4 == 3
  }

  /** The zero vector, compared coordinate by coordinate. */
  predicate IsZero(p: Point) {
    p.x == 0 && p.y == 0 && p.z == 0
  }

  predicate Distinct(ps: seq<Point>) {
    forall i, j :: 0 <= i < j < |ps| ==> ps[i] != ps[j]
  }

  // ---------------------------------------------------------------- the tables

  lemma CornerValue(n1: Bit, n2: Bit, n3: Bit)
    ensures Corner(n1, n2, n3) == Point(4 * n1, 4 * n2, 4 * n3)
  {
  }

  lemma CornerRow(n1: Bit, n2: Bit, n3: Bit)
    ensures Point(4 * n1, 4 * n2, 4 * n3) == B1Table[4 * n1 + 2 * n2 + n3]
  {
  }

  /** The corner loop appends `n1*e1 + n2*e2 + n3*e3` at position 4*n1 + 2*n2 + n3. */
  lemma CornerEntry(n1: Bit, n2: Bit, n3: Bit)
    ensures Corner(n1, n2, n3) == B1Table[4 * n1 + 2 * n2 + n3]
  {
    CornerValue(n1, n2, n3);
    CornerRow(n1, n2, n3);
  }

  /** The centre `a_k + n*e_k` in coordinates. */
  function FacePoint(n: Bit, k: int): Point {
    if k == 0 then Point(4 * n, 2, 2) else if k == 1 then Point(2, 4 * n, 2) else Point(2, 2, 4 * n)
  }

  lemma FaceValue(n: Bit, k: int)
    requires 0 <= k < 3
    ensures FaceCentre(n, k) == FacePoint(n, k)
  {
  }

  lemma FaceRow(n: Bit, k: int)
    requires 0 <= k < 3
    ensures FacePoint(n, k) == B1Table[8 + 3 * n + k]
  {
  }

  /** The face loop appends `a_k + n*e_k` at position 8 + 3*n + k. */
  lemma FaceEntry(n: Bit, k: int)
    requires 0 <= k < 3
    ensures FaceCentre(n, k) == B1Table[8 + 3 * n + k]
  {
    FaceValue(n, k);
    FaceRow(n, k);
  }

  /** The fourteen sites are exactly the fcc lattice points of the closed
      cell, each listed once. */
  lemma B1TableSites()
    ensures |B1Table| == 14
    ensures forall i :: 0 <= i < 14 ==> InClosedCube(B1Table[i]) && IsFccSite(B1Table[i])
  {
  }

  /** Where the loops put a site of the cell: 4*n1 + 2*n2 + n3 for the
      corner (4*n1, 4*n2, 4*n3), and 8 + 3*n + k for the centre of the face
      that sits at 4*n along axis k. */
  function SiteIndex(p: Point): int {
    if p.x != 2 && p.y != 2 && p.z != 2 then p.x + p.y / 2 + p.z / 4
    else if p.x != 2 then 8 + 3 * (p.x / 4)
    else if p.y != 2 then 9 + 3 * (p.y / 4)
    else 10 + 3 * (p.z / 4)
  }

  lemma SiteIndexInverts(i: int)
    requires 0 <= i < 14
    ensures SiteIndex(B1Table[i]) == i
  {
  }

  lemma B1TableDistinct()
    ensures Distinct(B1Table)
  {
    forall i, j | 0 <= i < j < |B1Table|
      ensures B1Table[i] != B1Table[j]
    {
      SiteIndexInverts(i);
      SiteIndexInverts(j);
    }
  }

  lemma B1TableComplete(p: Point)
    requires IsFccSite(p)
    ensures p in B1Table
  {
  }

  lemma B2Entry(k: int)
    requires 0 <= k < 4
    ensures Add(Basis(k), B2) == B2Table[k]
  {
  }

  /** The second sublattice: four sites with every coordinate a/4 or 3a/4,
      strictly inside the cell, exactly the shifted fcc points there. */
  lemma B2TableFacts()
    ensures |B2Table| == 4 && Distinct(B2Table)
    ensures forall i :: 0 <= i < 4 ==> InOpenCube(B2Table[i]) && IsShiftedSite(B2Table[i])
  {
  }

  lemma B2TableComplete(q: Point)
    requires IsShiftedSite(q)
    ensures q in B2Table
  {
  }

  /** Everything the b1 loops promise, stated of the table they produce. */
  lemma B1TableLayout()
    ensures |B1Table| == 14
    ensures forall n1: Bit, n2: Bit, n3: Bit :: B1Table[4 * n1 + 2 * n2 + n3] == Corner(n1, n2, n3)
    ensures forall n: Bit, k :: 0 <= k < 3 ==> B1Table[8 + 3 * n + k] == FaceCentre(n, k)
    ensures forall i :: 0 <= i < 14 ==> InClosedCube(B1Table[i]) && IsFccSite(B1Table[i])
    ensures Distinct(B1Table)
    ensures forall p :: IsFccSite(p) ==> p in B1Table
  {
    forall n1: Bit, n2: Bit, n3: Bit
      ensures B1Table[4 * n1 + 2 * n2 + n3] == Corner(n1, n2, n3)
    {
      CornerEntry(n1, n2, n3);
    }
    forall n: Bit, k | 0 <= k < 3
      ensures B1Table[8 + 3 * n + k] == FaceCentre(n, k)
    {
      FaceEntry(n, k);
    }
    B1TableSites();
    B1TableDistinct();
    forall p | IsFccSite(p)
      ensures p in B1Table
    {
      B1TableComplete(p);
    }
  }

  // ------------------------------------------------------------ bond geometry

  /** A unit step along every axis whose coordinates add up to 1 modulo 4:
      the shape shared by the four bond directions. */
  predicate IsBondStep(d: Point) {
    (d.x == 1 || d.x == -1) && (d.y == 1 || d.y == -1) && (d.z == 1 || d.z == -1) &&
    (d.x + d.y + d.z) % 4 == 1
  }

  /** Each of the four directions is a bond step ... */
  lemma DirectionIsBondStep(k: int)
    requires 0 <= k < 4
    ensures IsBondStep(Direction(k))
  {
  }

  /** ... and every bond step is one of the four directions. */
  lemma BondStepIsDirection(d: Point)
    requires IsBondStep(d)
    ensures exists k :: 0 <= k < 4 && Direction(k) == d
  {
    var k := if d.x == -1 && d.y == -1 then 0 else if d.x == -1 then 1 else if d.y == -1 then 2 else 3;
    var e := Direction(k);
    assert e.x == d.x && e.y == d.y && e.z == d.z;
  }

  /** The four directions add up to the zero vector. */
  lemma DirectionsCancel()
    ensures IsZero(Add(Add(Add(Direction(0), Direction(1)), Direction(2)), Direction(3)))
  {
    var d0, d1, d2, d3 := Direction(0), Direction(1), Direction(2), Direction(3);
    assert d0.x == -1 && d0.y == -1 && d0.z == -1;
    assert d1.x == -1 && d1.y == 1 && d1.z == 1;
    assert d2.x == 1 && d2.y == -1 && d2.z == 1;
    assert d3.x == 1 && d3.y == 1 && d3.z == -1;
  }

  /** Every bond step has squared length 3, that is (sqrt 3 / 4) a. */
  lemma BondStepLength(d: Point)
    requires IsBondStep(d)
    ensures Norm2(d) == 3
  {
    assert d.x * d.x == 1 && d.y * d.y == 1 && d.z * d.z == 1;
  }

  lemma OddSquare(c: int)
    requires c % 2 == 1
    ensures c * c >= 1
    ensures c * c == 1 ==> c == 1 || c == -1
  {
    if c >= 2 {
      assert c * c >= 2 * c;
    } else if c <= -2 {
      assert c * c >= -2 * c;
    }
  }

  lemma OddDifference(e: int, o: int)
    requires IsHalfStep(e) && IsOddQuarter(o)
    ensures (e - o) % 2 == 1 && -3 <= e - o <= 3
  {
  }

  lemma ShiftMod(a: int, b: int)
    requires a % 4 == 3 && (b == -3 || b == 1)
    ensures (a + b) % 4 == 0
  {
  }

  lemma DiffMod(a: int, b: int)
    requires a % 4 == 0 && b % 4 == 3
    ensures (a - b) % 4 == 1
  {
  }

  /** Following a bond from a b2 site lands on a b1 site. */
  lemma BondEndIsSite(q: Point, d: Point)
    requires IsShiftedSite(q) && IsBondStep(d)
    ensures IsFccSite(Add(q, d))
  {
    var e := Add(q, d);
    assert d.x + d.y + d.z == -3 || d.x + d.y + d.z == 1;
    ShiftMod(q.x + q.y + q.z, d.x + d.y + d.z);
    assert e.x + e.y + e.z == (q.x + q.y + q.z) + (d.x + d.y + d.z);
  }

  lemma OddNorm(d: Point)
    requires d.x % 2 == 1 && d.y % 2 == 1 && d.z % 2 == 1
    ensures Norm2(d) >= 3
    ensures Norm2(d) == 3 ==> (d.x == 1 || d.x == -1) && (d.y == 1 || d.y == -1) && (d.z == 1 || d.z == -1)
  {
    OddSquare(d.x);
    OddSquare(d.y);
    OddSquare(d.z);
  }

  /** Seen from a b2 site, no b1 site is nearer than a bond's length, and the
      b1 sites at exactly that distance are reached along a bond step. */
  lemma NearestSites(p: Point, q: Point)
    requires IsFccSite(p) && IsShiftedSite(q)
    ensures Norm2(Sub(p, q)) >= 3
    ensures Norm2(Sub(p, q)) == 3 ==> IsBondStep(Sub(p, q))
  {
    var d := Sub(p, q);
    OddDifference(p.x, q.x);
    OddDifference(p.y, q.y);
    OddDifference(p.z, q.z);
    OddNorm(d);
    DiffMod(p.x + p.y + p.z, q.x + q.y + q.z);
    assert d.x + d.y + d.z == (p.x + p.y + p.z) - (q.x + q.y + q.z);
  }

  // ------------------------------------------------------------ construction

  /** One row of `neighbour_connections`: a b2 site followed by a bond
      direction, the six numbers the script hands to the arrow plot. */
  datatype Bond = Bond(start: Point, step: Point)

  function End(b: Bond): Point {
    Add(b.start, b.step)
  }

  lemma PrefixStep<T>(s: seq<T>, k: int)
    requires 0 <= k < |s|
    ensures s[..k + 1] == s[..k] + [s[k]]
  {
  }

  /** The loops that fill `b1_points`: eight corners in loop order, then the
      six face centres. */
  method BuildB1Points() returns (pts: seq<Point>)
    ensures |pts| == 14
    ensures forall n1: Bit, n2: Bit, n3: Bit :: pts[4 * n1 + 2 * n2 + n3] == Corner(n1, n2, n3)
    ensures forall n: Bit, k :: 0 <= k < 3 ==> pts[8 + 3 * n + k] == FaceCentre(n, k)
    ensures forall i :: 0 <= i < |pts| ==> InClosedCube(pts[i]) && IsFccSite(pts[i])
    ensures Distinct(pts)
    ensures forall p :: IsFccSite(p) ==> p in pts
  {
    pts := BuildCorners();
    pts := AppendFaceCentres(pts);
    B1TableLayout();
  }

  /** The first loop nest of `b1_points`: the eight corners in loop order. */
  method BuildCorners() returns (pts: seq<Point>)
    ensures pts == B1Table[..8]
  {
    pts := [];
    for n1 := 0 to 2
      invariant pts == B1Table[..4 * n1]
    {
      for n2 := 0 to 2
        invariant pts == B1Table[..4 * n1 + 2 * n2]
      {
        for n3 := 0 to 2
          invariant pts == B1Table[..4 * n1 + 2 * n2 + n3]
        {
          CornerEntry(n1, n2, n3);
          PrefixStep(B1Table, 4 * n1 + 2 * n2 + n3);
          pts := pts + [Corner(n1, n2, n3)];
        }
      }
    }
  }

  /** The second loop nest of `b1_points`: the six face centres after the corners. */
  method AppendFaceCentres(corners: seq<Point>) returns (pts: seq<Point>)
    requires corners == B1Table[..8]
    ensures pts == B1Table
  {
    pts := corners;
    for n := 0 to 2
      invariant pts == B1Table[..8 + 3 * n]
    {
      for k := 0 to 3
        invariant pts == B1Table[..8 + 3 * n + k]
      {
        FaceEntry(n, k);
        PrefixStep(B1Table, 8 + 3 * n + k);
        pts := pts + [FaceCentre(n, k)];
      }
    }
    assert pts == B1Table[..14];
  }

  /** The loop that fills `b2_points`: each fcc basis vector shifted by b2. */
  method BuildB2Points() returns (pts: seq<Point>)
    ensures |pts| == 4
    ensures forall k :: 0 <= k < 4 ==> pts[k] == Add(Basis(k), B2)
    ensures forall k :: 0 <= k < 4 ==> InOpenCube(pts[k]) && IsShiftedSite(pts[k])
    ensures Distinct(pts)
    ensures forall q :: IsShiftedSite(q) ==> q in pts
  {
    pts := [];
    for k := 0 to 4
      invariant pts == B2Table[..k]
    {
      B2Entry(k);
      PrefixStep(B2Table, k);
      pts := pts + [Add(Basis(k), B2)];
    }
    assert pts == B2Table;
    forall k | 0 <= k < 4
      ensures pts[k] == Add(Basis(k), B2)
    {
      B2Entry(k);
    }
    B2TableFacts();
    forall q | IsShiftedSite(q)
      ensures q in pts
    {
      B2TableComplete(q);
    }
  }

  /** The loop that fills `neighbour_directions`: each fcc basis vector minus
      b2. */
  method BuildDirections() returns (dirs: seq<Point>)
    ensures |dirs| == 4
    ensures forall k :: 0 <= k < 4 ==> dirs[k] == Direction(k)
    ensures forall k :: 0 <= k < 4 ==> IsBondStep(dirs[k])
  {
    dirs := [];
    for k := 0 to 4
      invariant |dirs| == k
      invariant forall i :: 0 <= i < k ==> dirs[i] == Direction(i)
    {
      dirs := dirs + [Sub(Basis(k), B2)];
    }
    forall k | 0 <= k < 4
      ensures IsBondStep(dirs[k])
    {
      DirectionIsBondStep(k);
    }
  }

  /** Row i*m + j of an n-by-m table comes before row i'*m + j' whenever i < i'. */
  lemma RowBefore(i: int, j: int, i': int, m: int)
    requires 0 <= i < i' && 0 <= j < m
    ensures i * m + j < i' * m
  {
    var d := i' - i - 1;
    assert d >= 0;
    assert d * m >= 0;
    assert i' * m == i * m + m + d * m;
  }

  /** The rows one site contributes: the site paired with each direction. */
  function SiteRows(site: Point, dirs: seq<Point>): seq<Bond> {
    seq(|dirs|, j requires 0 <= j < |dirs| => Bond(site, dirs[j]))
  }

  /** The rows of the whole table, site by site. */
  function Connections(sites: seq<Point>, dirs: seq<Point>): seq<Bond> {
    if |sites| == 0 then []
    else Connections(sites[..|sites| - 1], dirs) + SiteRows(sites[|sites| - 1], dirs)
  }

  lemma {:induction false} ConnectionsLength(sites: seq<Point>, dirs: seq<Point>)
    ensures |Connections(sites, dirs)| == |sites| * |dirs|
  {
    if |sites| > 0 {
      ConnectionsLength(sites[..|sites| - 1], dirs);
      assert (|sites| - 1) * |dirs| + |dirs| == |sites| * |dirs|;
    }
  }

  /** Row i*m + j of a table of m columns lies in the table and is the pair
      (site i, direction j). */
  predicate RowsPair(rows: seq<Bond>, sites: seq<Point>, dirs: seq<Point>, i: int, j: int)
    requires 0 <= i < |sites| && 0 <= j < |dirs|
  {
    var k := i * |dirs| + j;
    0 <= k < |rows| && rows[k] == Bond(sites[i], dirs[j])
  }

  /** Row i*m + j of the table pairs site i with direction j. */
  lemma {:induction false} ConnectionsAt(sites: seq<Point>, dirs: seq<Point>, i: int, j: int)
    requires 0 <= i < |sites| && 0 <= j < |dirs|
    ensures RowsPair(Connections(sites, dirs), sites, dirs, i, j)
  {
    var n, m := |sites|, |dirs|;
    var front := sites[..n - 1];
    ConnectionsLength(front, dirs);
    ConnectionsLength(sites, dirs);
    if i < n - 1 {
      ConnectionsAt(front, dirs, i, j);
      RowBefore(i, j, n - 1, m);
    } else {
      assert i * m + j == |Connections(front, dirs)| + j;
    }
  }

  lemma ConnectionsLayout(sites: seq<Point>, dirs: seq<Point>, rows: seq<Bond>)
    requires rows == Connections(sites, dirs)
    ensures |rows| == |sites| * |dirs|
    ensures forall i, j :: 0 <= i < |sites| && 0 <= j < |dirs| ==> RowsPair(rows, sites, dirs, i, j)
  {
    ConnectionsLength(sites, dirs);
    forall i, j | 0 <= i < |sites| && 0 <= j < |dirs|
      ensures RowsPair(rows, sites, dirs, i, j)
    {
      ConnectionsAt(sites, dirs, i, j);
    }
  }

  /** The nested loop that fills `neighbour_connections`: one row per pair of
      a site and a direction, the site varying slowest. */
  method BuildConnections(sites: seq<Point>, dirs: seq<Point>) returns (rows: seq<Bond>)
    ensures |rows| == |sites| * |dirs|
    ensures forall i, j :: 0 <= i < |sites| && 0 <= j < |dirs| ==> RowsPair(rows, sites, dirs, i, j)
  {
    rows := [];
    for i := 0 to |sites|
      invariant rows == Connections(sites[..i], dirs)
    {
      ghost var done := rows;
      for j := 0 to |dirs|
        invariant rows == done + SiteRows(sites[i], dirs[..j])
      {
        assert SiteRows(sites[i], dirs[..j + 1]) == SiteRows(sites[i], dirs[..j]) + [Bond(sites[i], dirs[j])];
        rows := rows + [Bond(sites[i], dirs[j])];
      }
      assert dirs[..|dirs|] == dirs;
      assert sites[..i + 1][..i] == sites[..i];
    }
    assert sites[..|sites|] == sites;
    ConnectionsLayout(sites, dirs, rows);
  }

  lemma RowOfFour(rows: seq<Bond>, sites: seq<Point>, dirs: seq<Point>, i: int, j: int)
    requires |dirs| == 4 && 0 <= i < |sites| && 0 <= j < 4
    requires RowsPair(rows, sites, dirs, i, j)
    ensures 4 * i + j < |rows| && rows[4 * i + j] == Bond(sites[i], dirs[j])
  {
    var m := |dirs|;
    assert i * m == 4 * i;
  }

  /** The whole cell as the script builds it, with the property the picture
      depends on: every bond drawn from a b2 site ends on a b1 site, and all
      bonds are equally long. */
  method BuildDiamondCell() returns (b1: seq<Point>, b2: seq<Point>, dirs: seq<Point>, rows: seq<Bond>)
    ensures |b1| == 14 && |b2| == 4 && |dirs| == 4 && |rows| == 16
    ensures forall i :: 0 <= i < 14 ==> InClosedCube(b1[i]) && IsFccSite(b1[i])
    ensures Distinct(b1)
    ensures forall i :: 0 <= i < 4 ==> b2[i] == Add(Basis(i), B2)
    ensures forall j :: 0 <= j < 4 ==> dirs[j] == Direction(j)
    ensures forall i, j :: 0 <= i < 4 && 0 <= j < 4 ==> rows[4 * i + j] == Bond(b2[i], dirs[j])
    ensures forall k :: 0 <= k < 16 ==> End(rows[k]) in b1
    ensures forall k :: 0 <= k < 16 ==> Norm2(rows[k].step) == 3
  {
    b1 := BuildB1Points();
    b2 := BuildB2Points();
    dirs := BuildDirections();
    rows := BuildConnections(b2, dirs);
    forall i, j | 0 <= i < 4 && 0 <= j < 4
      ensures rows[4 * i + j] == Bond(b2[i], dirs[j])
    {
      RowOfFour(rows, b2, dirs, i, j);
    }
    BondsLand(b1, b2, dirs, rows);
  }

  /** Every row of a connection table laid out site by site ends on an fcc
      site and has squared length 3, once the sites are shifted sites, the
      directions are bond steps and `b1` holds every fcc site. */
  lemma BondsLand(b1: seq<Point>, b2: seq<Point>, dirs: seq<Point>, rows: seq<Bond>)
    requires |b2| == 4 && |dirs| == 4 && |rows| == 16
    requires forall i, j :: 0 <= i < 4 && 0 <= j < 4 ==> rows[4 * i + j] == Bond(b2[i], dirs[j])
    requires forall i :: 0 <= i < 4 ==> IsShiftedSite(b2[i])
    requires forall j :: 0 <= j < 4 ==> IsBondStep(dirs[j])
    requires forall p :: IsFccSite(p) ==> p in b1
    ensures forall k :: 0 <= k < 16 ==> End(rows[k]) in b1 && Norm2(rows[k].step) == 3
  {
    forall k | 0 <= k < 16
      ensures End(rows[k]) in b1 && Norm2(rows[k].step) == 3
    {
      var i, j := k / 4, k % 4;
      assert k == 4 * i + j;
      assert rows[k] == Bond(b2[i], dirs[j]);
      BondEndIsSite(b2[i], dirs[j]);
      BondStepLength(dirs[j]);
    }
  }
}

=== FILE: outcomes.dfy ===
/** Failure-carrying results shared by every part of the model.

    The scripts raise Python exceptions (or, in numpy, quietly produce NaN);
    the model turns each such outcome into a `Fault` value. */
module Outcomes {

  /** The ways an operation of the scripts can fail to produce a finite value. */
  datatype Fault =
    | ZeroDivision           // Python's ZeroDivisionError
    | Unbound(name: string)  // UnboundLocalError on the named local variable
    | IndexOutOfRange        // IndexError from list indexing
    | NotFinite              // a NaN entry from numpy's 0/0 (no exception is raised)

  datatype Option<+T> = None | Some(value: T)

  datatype Result<+T> = Ok(value: T) | Fail(fault: Fault)
}

=== FILE: progress.dfy ===
/** The console progress report printed after each animation frame
    (`animation_progress`, Animations/animations.py).

    The source divides with floats and rounds up with `np.ceil`; the model
    uses exact ceiling division of integers. */
module Progress {
  import opened Outcomes
  import Decimal
  import IntArith

  /** Number of cells the bar is meant to span. */
  const BarWidth: int := 20

  /** The least integer not below `a / b`. */
  function CeilDiv(a: int, b: int): (q: int)
    requires b != 0
    ensures (q - 1) as real < a as real / b as real <= q as real
  {
    if b > 0 then -((-a) / b) else -(a / (-b))
  }

  /** Python's `n * c` for a one-character string: empty when `n <= 0`. */
  function Repeat(c: char, n: int): (s: string)
    ensures |s| == if n < 0 then 0 else n
    ensures forall i :: 0 <= i < |s| ==> s[i] == c
  {
    if n <= 0 then [] else seq(n, _ => c)
  }

  /** The `'#'` count asked for on 0-based frame `frame` of `total`. */
  function Hashes(total: int, frame: int): int
    requires total != 0
  {
    CeilDiv(BarWidth * (frame + 1), total)
  }

  /** The `'_'` count asked for on 0-based frame `frame` of `total`. */
  function Blanks(total: int, frame: int): int
    requires total != 0
  {
    CeilDiv(BarWidth * (total - (frame + 1)), total)
  }

  /** What one call reports: the 1-based frame shown, the total, the bar,
      and whether the completion message follows. */
  datatype Report = Report(shown: int, total: int, bar: string, complete: bool)

  /** `bar` is `[`, then `h` hashes, then `u` underscores, then `]`. */
  predicate BarShape(bar: string, h: nat, u: nat) {
    && |bar| == h + u + 2
    && bar[0] == '[' && bar[|bar| - 1] == ']'
    && (forall i :: 1 <= i <= h ==> bar[i] == '#')
    && (forall i :: h < i <= h + u ==> bar[i] == '_')
  }

  function Clamp(n: int): nat {
    if n < 0 then 0 else n
  }

  /** `animation_progress(total_frames, frame)` as a value. */
  function AnimationProgress(total: int, frame: int): (r: Result<Report>)
    ensures r.Fail? <==> total == 0
    ensures r.Fail? ==> r.fault == ZeroDivision
    ensures r.Ok? ==> r.value.shown == frame + 1 && r.value.total == total
    ensures r.Ok? ==> (r.value.complete <==> frame == total - 1)
    ensures r.Ok? ==> BarShape(r.value.bar, Clamp(Hashes(total, frame)), Clamp(Blanks(total, frame)))
  {
    if total == 0 then Fail(ZeroDivision)
    else
      var shown := frame + 1;
      var done := Repeat('#', CeilDiv(BarWidth * shown, total));
      var remaining := Repeat('_', CeilDiv(BarWidth * (total - shown), total));
      Ok(Report(shown, total, "[" + done + remaining + "]", shown == total))
  }

  const DoneMessage: string := "Animation done!\n"

  const StatusPrefix: string := "Animated: "
  const StatusSuffix: string := " frames"

  /** The first line printed: `Animated: {frame} / {total_frames} frames`. */
  function StatusLine(r: Report): string {
    StatusPrefix + Decimal.Text(r.shown) + " / " + Decimal.Text(r.total) + StatusSuffix
  }

  /** Everything the call writes to standard output (each `print` adds a newline). */
  function Console(r: Report): (c: string)
    ensures var n := |StatusLine(r)|;
            && |c| >= n + |r.bar| + 3
            && c[..n] == StatusLine(r) && c[n] == '\n'
            && c[n + 1..n + 1 + |r.bar|] == r.bar && c[n + 1 + |r.bar|..n + 3 + |r.bar|] == "\n\n"
    ensures r.complete ==> c[|StatusLine(r)| + 3 + |r.bar|..] == DoneMessage + "\n"
    ensures !r.complete ==> |c| == |StatusLine(r)| + |r.bar| + 3
  {
    StatusLine(r) + "\n"
    + r.bar + "\n" + "\n"
    + (if r.complete then DoneMessage + "\n" else "")
  }

  /** Index of the first `c` in `s`, or `|s|` when there is none. */
  function FirstIndex(s: string, c: char): (k: nat)
    ensures k <= |s|
    ensures forall i :: 0 <= i < k ==> s[i] != c
    ensures k < |s| ==> s[k] == c
  {
    if |s| == 0 then 0 else if s[0] == c then 0 else 1 + FirstIndex(s[1..], c)
  }

  /** Reads the shown frame and the total back out of a status line. */
  function ReadStatus(line: string): Option<(int, int)> {
    if |line| < |StatusPrefix| + |StatusSuffix|
       || line[..|StatusPrefix|] != StatusPrefix
       || line[|line| - |StatusSuffix|..] != StatusSuffix
    then None
    else
      var mid := line[|StatusPrefix|..|line| - |StatusSuffix|];
      var k := FirstIndex(mid, ' ');
      if k + 3 > |mid| || mid[k..k + 3] != " / " then None
      else
        match (Decimal.Parse(mid[..k]), Decimal.Parse(mid[k + 3..]))
        case (Some(shown), Some(total)) => Some((shown, total))
        case _ => None
  }

  lemma CeilMonotone(a1: int, a2: int, b: int)
    requires b > 0 && a1 <= a2
    ensures CeilDiv(a1, b) <= CeilDiv(a2, b)
  {
    assert a1 as real / b as real <= a2 as real / b as real;
  }

  /** For a frame inside the animation the interior of the bar is 20 or 21
      characters long, and 20 exactly when `total` divides `20 * (frame + 1)`. */
  lemma BarInteriorWidth(total: int, frame: int)
    requires 0 <= frame < total
    ensures 1 <= Hashes(total, frame) <= BarWidth
    ensures 0 <= Blanks(total, frame) <= BarWidth
    ensures BarWidth <= Hashes(total, frame) + Blanks(total, frame) <= BarWidth + 1
    ensures Hashes(total, frame) + Blanks(total, frame) == BarWidth
            <==> (BarWidth * (frame + 1)) % total == 0
  {
    var a := BarWidth * (frame + 1);
    var h, u := Hashes(total, frame), Blanks(total, frame);
    var x := a as real / total as real;
    assert (h - 1) as real < x <= h as real;
    assert (u - 1) as real < BarWidth as real - x <= u as real by {
      assert BarWidth * (total - (frame + 1)) == BarWidth * total - a;
      RealShift(a, total, BarWidth);
    }
    CeilPairSum(h, u, x, BarWidth);
    assert 0.0 < x <= BarWidth as real by {
      assert 0 < a <= BarWidth * total;
      RealBounds(a, total, BarWidth);
    }
    assert 1 <= h <= BarWidth;
    assert 0 <= u <= BarWidth;
    if h + u == BarWidth {
      ExactQuotient(a, total, h);
      IntArith.DivModUnique(a, total, h, 0);
    }
    if a % total == 0 {
      var k := a / total;
      assert a == k * total;
      ExactQuotientBack(a, total, k);
      CeilOfWhole(h, k);
    }
  }

  lemma CeilOfWhole(h: int, k: int)
    requires (h - 1) as real < k as real <= h as real
    ensures h == k
  {
  }

  lemma RealBounds(a: int, t: int, w: int)
    requires t > 0 && 0 < a <= w * t
    ensures 0.0 < a as real / t as real <= w as real
  {
  }

  /** Two ceilings of quotients that add up to `w` exceed `w` by at most one,
      and by nothing exactly when the first quotient is whole. */
  lemma CeilPairSum(h: int, u: int, x: real, w: int)
    requires (h - 1) as real < x <= h as real
    requires (u - 1) as real < w as real - x <= u as real
    ensures w <= h + u <= w + 1
    ensures h + u == w <==> x == h as real
  {
  }

  lemma RealShift(a: int, t: int, w: int)
    requires t > 0
    ensures (w * t - a) as real / t as real == w as real - a as real / t as real
  {
  }

  lemma ExactQuotient(a: int, t: int, h: int)
    requires t > 0 && h as real == a as real / t as real
    ensures a == h * t
  {
  }

  lemma ExactQuotientBack(a: int, t: int, k: int)
    requires t > 0 && a == k * t
    ensures a as real / t as real == k as real
  {
  }

  /** The worked example: three frames, first frame, gives 7 + 14 = 21 cells. */
  lemma WideBarExample()
    ensures AnimationProgress(3, 0).Ok?
    ensures |AnimationProgress(3, 0).value.bar| == 23
  {
    assert Hashes(3, 0) == 7;
    assert Blanks(3, 0) == 14;
  }

  /** On the last frame the bar is twenty hashes and the completion message
      is printed; on any earlier frame the message is absent and at least one
      underscore remains. */
  lemma LastFrameOnly(total: int, frame: int)
    requires 0 <= frame < total
    ensures AnimationProgress(total, frame).Ok?
    ensures frame < total - 1 ==> Blanks(total, frame) >= 1
    ensures frame == total - 1 ==>
              AnimationProgress(total, frame).value.bar == "[" + Repeat('#', BarWidth) + "]"
    ensures var c := Console(AnimationProgress(total, frame).value);
            frame == total - 1 <==> |c| >= |DoneMessage| + 1 && c[|c| - |DoneMessage| - 1..] == DoneMessage + "\n"
  {
    if frame == total - 1 {
      LastFrameFull(total, frame);
    } else {
      EarlierFrameOpen(total, frame);
    }
  }

  lemma LastFrameFull(total: int, frame: int)
    requires 0 <= frame == total - 1
    ensures AnimationProgress(total, frame).Ok?
    ensures AnimationProgress(total, frame).value.bar == "[" + Repeat('#', BarWidth) + "]"
    ensures AnimationProgress(total, frame).value.complete
  {
    var r := AnimationProgress(total, frame).value;
    BarInteriorWidth(total, frame);
    assert Blanks(total, frame) == 0;
    assert Hashes(total, frame) == BarWidth;
    assert r.bar == "[" + Repeat('#', BarWidth) + "]";
  }

  lemma EarlierFrameOpen(total: int, frame: int)
    requires 0 <= frame < total - 1
    ensures Blanks(total, frame) >= 1
    ensures var c := Console(AnimationProgress(total, frame).value);
            !(|c| >= |DoneMessage| + 1 && c[|c| - |DoneMessage| - 1..] == DoneMessage + "\n")
  {
    CeilPositive(BarWidth * (total - (frame + 1)), total);
    var r := AnimationProgress(total, frame).value;
    assert r.bar[|r.bar| - 1] == ']';
    NoDoneMessage(r);
  }

  lemma CeilPositive(a: int, b: int)
    requires a > 0 && b > 0
    ensures CeilDiv(a, b) >= 1
  {
    assert a as real / b as real > 0.0;
  }

  /** Output whose bar ends in `]` and is not flagged complete does not end
      with the completion message. */
  lemma NoDoneMessage(r: Report)
    requires !r.complete && |r.bar| >= 1 && r.bar[|r.bar| - 1] == ']'
    ensures var c := Console(r);
            !(|c| >= |DoneMessage| + 1 && c[|c| - |DoneMessage| - 1..] == DoneMessage + "\n")
  {
    var c := Console(r);
    var n := |StatusLine(r)|;
    assert c[n + 1..n + 1 + |r.bar|][|r.bar| - 1] == ']';
    assert c[|c| - 3] == ']';
    if |c| >= |DoneMessage| + 1 {
      var t := c[|c| - |DoneMessage| - 1..];
      assert t[14] == c[|c| - 3];
      assert (DoneMessage + "\n")[14] == '!';
    }
  }

  /** As the frame advances the hash count never falls and the underscore
      count never rises. */
  lemma Monotone(total: int, f1: int, f2: int)
    requires 0 <= f1 <= f2 < total
    ensures Hashes(total, f1) <= Hashes(total, f2)
    ensures Blanks(total, f1) >= Blanks(total, f2)
  {
    CeilMonotone(BarWidth * (f1 + 1), BarWidth * (f2 + 1), total);
    CeilMonotone(BarWidth * (total - (f2 + 1)), BarWidth * (total - (f1 + 1)), total);
  }

  /** The status line of any report reads back as its shown frame and total. */
  lemma StatusRoundTrip(r: Report)
    ensures ReadStatus(StatusLine(r)) == Some((r.shown, r.total))
  {
    var a, b := Decimal.Text(r.shown), Decimal.Text(r.total);
    assert StatusLine(r) == StatusPrefix + (a + " / " + b) + StatusSuffix;
    Decimal.TextHasNoSpace(r.shown);
    ReadFramed(a, b);
    Decimal.TextRoundTrip(r.shown);
    Decimal.TextRoundTrip(r.total);
  }

  /** A framed `a / b` with no blank in `a` reads back as the two parsed numerals. */
  lemma ReadFramed(a: string, b: string)
    requires forall i :: 0 <= i < |a| ==> a[i] != ' '
    ensures ReadStatus(StatusPrefix + (a + " / " + b) + StatusSuffix)
            == if Decimal.Parse(a).Some? && Decimal.Parse(b).Some?
               then Some((Decimal.Parse(a).value, Decimal.Parse(b).value)) else None
  {
    Framed(a + " / " + b);
    SplitAtSlash(a, b);
  }

  /** The prefix and suffix checks accept a framed line and strip exactly the frame. */
  lemma Framed(mid: string)
    ensures var line := StatusPrefix + mid + StatusSuffix;
            && |line| >= |StatusPrefix| + |StatusSuffix|
            && line[..|StatusPrefix|] == StatusPrefix
            && line[|line| - |StatusSuffix|..] == StatusSuffix
            && line[|StatusPrefix|..|line| - |StatusSuffix|] == mid
  {
    var line := StatusPrefix + mid + StatusSuffix;
    assert line[..|StatusPrefix|] == StatusPrefix;
    assert line[|line| - |StatusSuffix|..] == StatusSuffix;
    assert line[|StatusPrefix|..|line| - |StatusSuffix|] == mid;
  }

  /** The first blank of `a / b` ends `a` when `a` holds no blank. */
  lemma SplitAtSlash(a: string, b: string)
    requires forall i :: 0 <= i < |a| ==> a[i] != ' '
    ensures var mid := a + " / " + b;
            && FirstIndex(mid, ' ') == |a| && |a| + 3 <= |mid|
            && mid[..|a|] == a && mid[|a|..|a| + 3] == " / " && mid[|a| + 3..] == b
  {
    var mid := a + " / " + b;
    FirstIndexAfter(a, " / " + b, ' ');
    assert mid == a + (" / " + b);
    assert mid[..|a|] == a;
    assert mid[|a|..|a| + 3] == " / ";
    assert mid[|a| + 3..] == b;
  }

  lemma FirstIndexAfter(s: string, t: string, c: char)
    requires forall i :: 0 <= i < |s| ==> s[i] != c
    requires |t| > 0 && t[0] == c
    ensures FirstIndex(s + t, c) == |s|
  {
    var k := FirstIndex(s + t, c);
    assert (s + t)[|s|] == c;
  }

  /** The displayed count is the 1-based frame number out of `total`. */
  lemma ShownCount(total: int, frame: int)
    requires total != 0
    ensures ReadStatus(StatusLine(AnimationProgress(total, frame).value)) == Some((frame + 1, total))
  {
    StatusRoundTrip(AnimationProgress(total, frame).value);
  }
}

=== FILE: rotation.dfy ===
/** Column-wise application of a 3 x 3 matrix to a 3 x N array of points
    (`rotate`, Animations/animations.py). Arithmetic is exact over `real`. */
module Rotation {

  datatype Vec3 = Vec3(x: real, y: real, z: real)

  /** A 3 x 3 matrix, stored by rows. */
  datatype Mat3 = Mat3(r0: Vec3, r1: Vec3, r2: Vec3)

  function Dot(a: Vec3, b: Vec3): real {
    a.x * b.x + a.y * b.y + a.z * b.z
  }

  /** The matrix-vector product `M @ v`. */
  function Apply(m: Mat3, v: Vec3): Vec3 {
    Vec3(Dot(m.r0, v), Dot(m.r1, v), Dot(m.r2, v))
  }

  function Col(m: Mat3, j: nat): Vec3
    requires j < 3
  {
    if j == 0 then Vec3(m.r0.x, m.r1.x, m.r2.x)
    else if j == 1 then Vec3(m.r0.y, m.r1.y, m.r2.y)
    else Vec3(m.r0.z, m.r1.z, m.r2.z)
  }

  /** The matrix product `M @ N`. */
  function Mul(m: Mat3, n: Mat3): Mat3 {
    Mat3(Vec3(Dot(m.r0, Col(n, 0)), Dot(m.r0, Col(n, 1)), Dot(m.r0, Col(n, 2))),
         Vec3(Dot(m.r1, Col(n, 0)), Dot(m.r1, Col(n, 1)), Dot(m.r1, Col(n, 2))),
         Vec3(Dot(m.r2, Col(n, 0)), Dot(m.r2, Col(n, 1)), Dot(m.r2, Col(n, 2))))
  }

  const Identity: Mat3 := Mat3(Vec3(1.0, 0.0, 0.0), Vec3(0.0, 1.0, 0.0), Vec3(0.0, 0.0, 1.0))

  /** A 3 x N numpy array of points, stored by rows: column i is point i. */
  datatype Cloud = Cloud(xs: seq<real>, ys: seq<real>, zs: seq<real>)

  /** A numpy array is rectangular: the three rows have one length. */
  predicate WellFormed(c: Cloud) {
    |c.xs| == |c.ys| == |c.zs|
  }

  function Width(c: Cloud): nat {
    |c.xs|
  }

  /** `X[:, i]`. */
  function Column(c: Cloud, i: nat): Vec3
    requires WellFormed(c) && i < Width(c)
  {
    Vec3(c.xs[i], c.ys[i], c.zs[i])
  }

  /** `r` has the shape of `x` and each of its columns is `m` applied to the
      same column of `x`, and to no other. */
  ghost predicate IsRotationOf(m: Mat3, x: Cloud, r: Cloud)
    requires WellFormed(x)
  {
    && WellFormed(r)
    && Width(r) == Width(x)
    && forall i :: 0 <= i < Width(x) ==> Column(r, i) == Apply(m, Column(x, i))
  }

  /** `rotate(M, X)`: start from zeros of X's shape and overwrite column i
      with `M @ X[:, i]`, for i from left to right. */
  method Rotate(m: Mat3, x: Cloud) returns (r: Cloud)
    requires WellFormed(x)
    ensures IsRotationOf(m, x, r)
  {
    var n := Width(x);
    r := Cloud(seq(n, _ => 0.0), seq(n, _ => 0.0), seq(n, _ => 0.0));
    var i := 0;
    while i < n
      invariant 0 <= i <= n
      invariant WellFormed(r) && Width(r) == n
      invariant forall k :: 0 <= k < i ==> Column(r, k) == Apply(m, Column(x, k))
    {
      var v := Apply(m, Column(x, i));
      r := Cloud(r.xs[i := v.x], r.ys[i := v.y], r.zs[i := v.z]);
      i := i + 1;
    }
  }

  /** The result of `rotate` is determined by the matrix and the input. */
  lemma RotationUnique(m: Mat3, x: Cloud, r1: Cloud, r2: Cloud)
    requires WellFormed(x) && IsRotationOf(m, x, r1) && IsRotationOf(m, x, r2)
    ensures r1 == r2
  {
    forall i | 0 <= i < Width(x)
      ensures r1.xs[i] == r2.xs[i] && r1.ys[i] == r2.ys[i] && r1.zs[i] == r2.zs[i]
    {
      assert Column(r1, i) == Column(r2, i);
    }
  }

  lemma ApplyMul(m: Mat3, n: Mat3, v: Vec3)
    ensures Apply(m, Apply(n, v)) == Apply(Mul(m, n), v)
  {
  }

  /** Rotating by `n` and then by `m` is rotating once by `m @ n`. */
  lemma RotateCompose(m: Mat3, n: Mat3, x: Cloud, y: Cloud, z: Cloud)
    requires WellFormed(x) && IsRotationOf(n, x, y) && IsRotationOf(m, y, z)
    ensures IsRotationOf(Mul(m, n), x, z)
  {
    forall i | 0 <= i < Width(x)
      ensures Column(z, i) == Apply(Mul(m, n), Column(x, i))
    {
      ApplyMul(m, n, Column(x, i));
    }
  }

  /** Rotating by the identity matrix returns the points unchanged. */
  lemma RotateIdentity(x: Cloud, r: Cloud)
    requires WellFormed(x) && IsRotationOf(Identity, x, r)
    ensures r == x
  {
    forall i | 0 <= i < Width(x)
      ensures r.xs[i] == x.xs[i] && r.ys[i] == x.ys[i] && r.zs[i] == x.zs[i]
    {
      assert Column(r, i) == Apply(Identity, Column(x, i));
    }
  }
}
